=== FILE: README.md ===
# qifa wheel picker, modelled in Dafny

qifa is a command-line helper that installs a prebuilt `flash_attn` wheel
matching the running environment. It reads the CPython version, the
installed torch build (its major.minor version, the CUDA version it was
compiled against, its C++11 ABI flag), the platform, and optionally the
release printed by `nvcc -V`. From these it builds three wheel file-name
patterns. It fetches the release assets of the `flash_attn` GitHub
project, either for one tagged version or from the recent release
listing. It picks the first asset whose name matches a pattern, in
pattern order. `plan` reports the choice. `install` uninstalls the
current package and installs the chosen wheel's URL with pip, unless
`--dry-run` is given.

This project models that decision logic as pure functions:

- What the host and the registry report arrives as input values: `Host`,
  `TorchProbe`, `Registry`.
- The side effects a command would perform (running nvcc, each HTTP
  fetch, each pip call) are recorded in order as a list of `Effect`s.
- How a command ends is recorded as well: normally, through `sys.exit`
  with a code, or with an exception.

Modules, one per file:

| file | module | what it holds |
|---|---|---|
| `wrappers.dfy` | `Wrappers` | `Option` and `Result` |
| `strings.dfy` | `Strings` | Python string behaviour the core relies on: truthiness, `replace`, `split(...)[0]`, decimal formatting of integers, ASCII `upper`, the `\d` and `\s` regex classes |
| `glob.dfy` | `Glob` | `fnmatch` restricted to `*`, `?` and literal characters |
| `detect.dfy` | `Detect` | `detect_python_tag`, `detect_torch`, `detect_platform` |
| `nvcc.dfy` | `Nvcc` | `re.search(r"release\s+(\d+)\.(\d+)", out)` as a leftmost-match search |
| `resolve.dfy` | `Resolve` | `get_nvcc_version`, `pick_cu_tag` |
| `catalog.dfy` | `Catalog` | release entries and assets, `list_release_assets` |
| `candidates.dfy` | `Candidates` | `candidate_wheel_names` |
| `selection.dfy` | `Selection` | `select_asset` |
| `planner.dfy` | `Planner` | `plan`, `do_install` |

Where the code and the project's own description of it differ, the model
follows the code:

- The second candidate pattern always spells the compute tag `cu12`, for
  every detected CUDA version. It does not drop the minor digit of the
  detected tag. `Candidates.SecondIgnoresCuTag` states this.
- The third pattern keeps the compute tag and the exact local version. It
  relaxes everything after the Python tag, including the ABI tag and the
  platform. `Candidates.ThirdIgnoresPlatform` states this.
- The ABI flag read from torch is never used by `plan`. Only the `--abi`
  option decides the ABI token. `Planner.PlanIgnoresDetectedAbi` states this.

## Model

| member | source | states |
|---|---|---|
| Strings.DeleteAll | src/qifa/cli.py:37 | `replace(".", "")` leaves no `.` and keeps every other character with its multiplicity |
| Strings.DeleteAllConcat | src/qifa/cli.py:37 | deleting a character from a concatenation deletes it from each part |
| Strings.BeforeFirst | src/qifa/cli.py:24 | `split("+")[0]` is a prefix of the string without `+`, and when shorter it is followed by `+` |
| Strings.Decimal | src/qifa/cli.py:17 | formatting an integer gives a non-empty digit string without a leading zero, one digit exactly below ten |
| Strings.DecimalRoundTrip | src/qifa/cli.py:17 | reading the decimal text of a number gives the number back |
| Strings.Upper | src/qifa/cli.py:133 | upper-casing keeps the length and maps every character through the ASCII case mapping |
| Strings.UpperIsFalse | src/qifa/cli.py:133 | `abi.upper() == "FALSE"` holds exactly for the spellings of "false" in any ASCII letter case |
| Glob.Matches | src/qifa/cli.py:110 | `fnmatch` on `*`, `?` and literal characters; a pattern without `*` only matches names of its own length |
| Glob.MatchConsumesNonStars | src/qifa/cli.py:110 | every pattern character other than `*` consumes one character of a matching name, so the name is at least that long |
| Glob.LiteralMatchesItself | src/qifa/cli.py:110 | a pattern without wildcards matches exactly the name equal to it |
| Glob.LiteralHead | src/qifa/cli.py:110 | a literal head of a pattern must be a prefix of the name, and the rest of the pattern must match the rest of the name |
| Glob.StarThenLiteral | src/qifa/cli.py:110 | `*` followed by a literal matches exactly the names ending in that literal |
| Glob.StarAcceptsAll | src/qifa/cli.py:110 | a lone `*` matches every name |
| Glob.EmptyNameNeedsOnlyStars | src/qifa/cli.py:110 | a pattern holding a character other than `*` does not match the empty name |
| Detect.PythonTag | src/qifa/cli.py:14-17 | the interpreter tag is `cp` followed by at least two digits |
| Detect.PythonTagReadBack | src/qifa/cli.py:17 | for a one-digit major version, the major and minor versions can be read back from the tag |
| Detect.PythonTagAmbiguous | src/qifa/cli.py:17 | Python 3.11 and a hypothetical 31.1 get the same tag, because the two numbers are joined without a separator |
| Detect.TorchCuTag | src/qifa/cli.py:32-39 | a compute tag exists exactly when torch reports a CUDA version; it is `cu` followed by that version with every `.` deleted, the other characters kept in order, none lost and no `.` left |
| Detect.TorchTagTruthy | src/qifa/cli.py:69 | the torch compute tag is a non-empty (true) string exactly when torch reports a CUDA version |
| Detect.TorchCuTagDotted | src/qifa/cli.py:37-39 | CUDA `X.Y` with digit runs X and Y becomes `cuXY` |
| Detect.DetectTorch | src/qifa/cli.py:19-46 | no torch gives three nones; otherwise the major.minor comes from the version text before `+` (parsed if valid, raw if not); the compute tag is the one derived from torch's CUDA version; the ABI is none only when `torch._C` cannot be imported, false when the attribute is missing, and the attribute's truth value otherwise |
| Detect.DetectPlatform | src/qifa/cli.py:48-55 | Linux on x86_64 gives `linux_x86_64`; otherwise a `win` prefix gives `win_amd64`; `darwin` gives `macosx`; every other combination gives the raw system name, and no other value is possible |
| Detect.LinuxElsewhereIsRaw | src/qifa/cli.py:49-55 | Linux on a machine other than x86_64 falls through to the raw system name |
| Detect.PrimaryOnlyFromLinuxX86 | src/qifa/cli.py:48-55 | the `linux_x86_64` tag comes only from Linux on x86_64, unless the raw system name already is that tag |
| Nvcc.SpanMaximal | src/qifa/cli.py:62 | the run a greedy `\s+` or `\d+` consumes is made of characters of its class and cannot be extended |
| Nvcc.SpanUnique | src/qifa/cli.py:62 | any run of the class that cannot be extended is exactly the greedy run |
| Nvcc.AfterKeywordSound | src/qifa/cli.py:62 | after `release`, the greedy runs found form a match of the remaining regex |
| Nvcc.AfterKeywordComplete | src/qifa/cli.py:62 | whenever the remaining regex matches after `release`, the greedy runs find that match |
| Nvcc.MatchAtComplete | src/qifa/cli.py:62 | a match starting at a position is found by trying that position |
| Nvcc.MatchesAtUnique | src/qifa/cli.py:62 | at a given position the regex matches at most one way, so the groups are determined |
| Nvcc.SearchFrom | src/qifa/cli.py:62 | the search from a position returns the leftmost match at or after it, or none when there is none |
| Nvcc.NvccTag | src/qifa/cli.py:62-65 | the result is `cu` followed by at least two digits, and it is none exactly when the regex matches nowhere in the output |
| Nvcc.NvccTagLeftmost | src/qifa/cli.py:62-65 | the tag is built from the groups of the leftmost match |
| Nvcc.NoMatchWithoutR | src/qifa/cli.py:62 | a match can only start at an `r` |
| Nvcc.MajorOnlyIsRejected | src/qifa/cli.py:62-64 | `release 11, V11.8.89` yields no tag, because a minor version must follow the major |
| Nvcc.FirstReleaseAfter | src/qifa/cli.py:62-65 | text without `r` followed by `release`, whitespace and `X.Y` (not followed by a digit) yields `cuXY` |
| Nvcc.TypicalBanner | src/qifa/cli.py:62-65 | the typical `nvcc -V` banner line `Cuda compilation tools, release 12.1, V12.1.105` yields `cu121` |
| Resolve.NvccVersion | src/qifa/cli.py:57-65 | no nvcc gives no tag; when nvcc ran, the result is the tag of the leftmost `release X.Y` match in its output (`Nvcc.NvccTag`), none exactly when nothing matches; any tag found is `cu` followed by digits |
| Resolve.PickCuTag | src/qifa/cli.py:67-71 | a non-empty torch tag is used as is; otherwise the nvcc result is used, possibly none |
| Resolve.TorchCudaWins | src/qifa/cli.py:69-70 | when torch reports CUDA, the nvcc output has no influence on the chosen tag |
| Resolve.NoTorchCudaFallsBack | src/qifa/cli.py:67-71 | when torch reports no CUDA, the chosen tag is exactly what nvcc yields |
| Resolve.NvccReleaseDotted | src/qifa/cli.py:62-65 | nvcc output consisting of `release X.Y` alone, with digit runs X and Y, gives `cuXY` |
| Resolve.SourcesAgree | src/qifa/cli.py:37-39 | torch's `X.Y` and nvcc's `release X.Y` give the same tag, `cuXY` |
| Catalog.CollectRecent | src/qifa/cli.py:86-92 | the loop over the listed releases yields the recent listing: the assets of the `v`-tagged releases, concatenated in release order |
| Catalog.RecentAssets | src/qifa/cli.py:86-92 | the recent listing: the assets of the `v`-tagged releases, release by release in registry order, with nothing removed or reordered; it never holds more assets than the releases carry (the lemmas below pin the rest) |
| Catalog.RecentAssetsAppend | src/qifa/cli.py:87-91 | the listing of two runs of releases is the listing of the first followed by that of the second |
| Catalog.RecentAssetsMembers | src/qifa/cli.py:87-91 | an asset is listed exactly when some `v`-tagged release carries it |
| Catalog.KeptPairConcatenated | src/qifa/cli.py:91 | assets are neither deduplicated nor reordered: two kept releases contribute their lists back to back |
| Catalog.UntaggedSkipped | src/qifa/cli.py:88-90 | a release whose tag is missing or does not start with `v` adds nothing |
| Catalog.ListReleaseAssets | src/qifa/cli.py:73-92 | with a version: 404 gives an empty list, a 4xx/5xx status raises, anything else gives that release's assets; without one: a 4xx/5xx status raises, anything else gives the recent listing; only 4xx/5xx statuses are raised |
| Candidates.CandidateWheelNames | src/qifa/cli.py:94-103 | exactly three patterns: the exact wheel name; the same with the compute tag `cu12`; and the exact name's prefix through the Python tag followed by `*.whl` |
| Candidates.FirstCandidateExample | src/qifa/cli.py:98 | for 2.5.8, cu121, torch 2.5, the FALSE ABI, cp310 on Linux x86_64, the first pattern is `flash_attn-2.5.8+cu121torch2.5cxx11abiFALSE-cp310-cp310-linux_x86_64.whl` |
| Candidates.SecondIgnoresCuTag | src/qifa/cli.py:100 | the second pattern does not depend on the detected compute tag |
| Candidates.CandidatesAccept | src/qifa/cli.py:97-103 | when the fields hold no `*`, `?` or `[`, the first two patterns each accept exactly one name (themselves), and the third accepts exactly the names that start with its prefix and end in `.whl` |
| Candidates.ThirdRelaxesFirst | src/qifa/cli.py:101-102 | every name the first pattern accepts, the third also accepts |
| Candidates.NoPatternAcceptsEmptyName | src/qifa/cli.py:97-103 | no pattern matches the empty name, which is what `a.get("name", "")` gives for an asset without a name |
| Candidates.ThirdIgnoresPlatform | src/qifa/cli.py:102 | the third pattern accepts a wheel with the same local and Python tag for any ABI tag and platform |
| Selection.FirstAssetFor | src/qifa/cli.py:108-111 | the inner loop returns the first asset from a position on whose name matches the pattern, or none when no later asset matches |
| Selection.Locate | src/qifa/cli.py:107-112 | the outer loop, given that earlier patterns matched nothing, returns the first stopping point, or none when nothing matches any pattern |
| Selection.Select | src/qifa/cli.py:105-112 | the result is none exactly when no asset matches any pattern; otherwise it is the asset where the pattern-major, asset-minor search first hits |
| Selection.SelectIsFirstHit | src/qifa/cli.py:105-112 | the first hit, wherever it is, is what is selected |
| Selection.EmptySelectsNothing | src/qifa/cli.py:105-112 | an empty asset list or pattern list selects nothing |
| Selection.SelectAsset | src/qifa/cli.py:105-112 | the nested loops with early return compute the selection, and return none exactly when nothing matches |
| Selection.PatternOrderWins | src/qifa/cli.py:107-111 | pattern order beats asset order: a later asset matching an earlier pattern wins |
| Planner.AbiFalse | src/qifa/cli.py:133 | the ABI is FALSE when `--abi` is absent or spells "false" in any ASCII letter case, and TRUE otherwise |
| Planner.EffectiveVersion | src/qifa/cli.py:134 | a non-empty version is used as is; an absent or empty one becomes 2.5.8; the version is never empty |
| Planner.Detected | src/qifa/cli.py:121-132 | without torch, detection exits with code 2 having done nothing; nvcc is run exactly when torch reports no CUDA version; detection exits (always with code 2, never raising) exactly when torch is missing or neither torch nor nvcc gives a compute tag; a finished detection carries the interpreter tag, the platform and torch's major.minor as detected, torch's own compute tag, and the chosen compute tag, which is torch's when torch reports CUDA and nvcc's otherwise |
| Planner.Plan | src/qifa/cli.py:120-151 | without torch, `plan` exits with code 2 before anything is run; every exit has code 2 and runs at most nvcc; `plan` exits exactly when torch is missing or neither torch nor nvcc gives a compute tag; otherwise its effects are the nvcc run (when torch reports no CUDA) followed by the single fetch, by tag when a version is given and from the listing otherwise, and it raises the HTTP error of a failed fetch and finishes with a plan after a successful one; `plan` never runs pip |
| Planner.Fetched | src/qifa/cli.py:133-137 | after detection, `plan` adds exactly one fetch; an HTTP error raises; a successful fetch yields a decision that keeps the detected fields, the ABI token, the defaulted version, the three patterns built from them and the first hit among the fetched assets |
| Planner.PlanProbesNvcc | src/qifa/cli.py:126-132 | nvcc is run exactly when torch is present but reports no CUDA version; when nvcc yields no tag either, `plan` exits with code 2 right after running it |
| Planner.PlanDecision | src/qifa/cli.py:121-137 | a successful `plan` had torch; its interpreter tag, platform and torch major.minor are the detected ones; the ABI is FALSE unless `--abi` says otherwise; the version defaults to 2.5.8; the compute tag is torch's, or else nvcc's; the patterns are built from those; the asset is the first hit among the assets fetched |
| Planner.PlannedAssetNamed | src/qifa/cli.py:146-151 | a planned asset always has a non-empty name, so `if not asset` is false exactly when an asset was found |
| Planner.PlanIgnoresDetectedAbi | src/qifa/cli.py:122 | the ABI flag torch reports never changes what `plan` does |
| Planner.Install | src/qifa/cli.py:154-167 | exits and exceptions of the plan pass through unchanged; exit code 3 comes exactly from an exit 3 or a plan with no asset; `--dry-run` adds no effect; a finished run used the planned asset's download URL, and without `--dry-run` it uninstalled and then installed that URL, in that order; a plan with no asset or an asset without a download URL adds no effect, and the missing URL raises; a pip failure comes only after uninstalling and installing the planned URL; with a download URL the run finishes exactly when `--dry-run` is given or pip succeeded, and a pip failure without `--dry-run` raises |
| Planner.DoInstall | src/qifa/cli.py:153-167 | `install` exits with code 3 exactly when `plan` found no asset; under `--dry-run` pip is never run; without torch it exits with code 2 having done nothing; when `plan` found an asset with a download URL, `install` finishes exactly when `--dry-run` is given or pip succeeded, with that URL, and without `--dry-run` it uninstalls and then installs that URL right after planning |
| Planner.DoInstallStopsWithPlan | src/qifa/cli.py:153-158 | every way `plan` stops is final for `install`: its exit, including code 2 when torch is present but no compute tag resolves, and its HTTP exception pass through with the plan's effects unchanged, and a found asset without a download URL raises before pip is run |

## Left out

- HTTP, JSON decoding, subprocesses and pip are inputs, not actions:
  - the registry is a pair of replies (status code and decoded content);
  - the nvcc output is an optional string;
  - whether `pip install` succeeded is a boolean.
- Only the `name` and `browser_download_url` keys of an asset are modelled. The other keys of the JSON objects are not.
- A key present with a non-string value (JSON `null`, a number) is not modelled either.
- Request timeouts, network exceptions and JSON decode errors are not modelled.
- `packaging.version.Version` is a function parameter of `Detect.DetectTorch`. It yields the major and minor numbers, or none for an invalid version. Its parsing rules are outside this model.
- `per_page=10` is the registry's business. The model takes whatever releases the listing returns.
- `Glob.Matches`: models `fnmatch` with `*`, `?` and literal characters only. `[...]` character classes and `os.path.normcase` are not modelled (normcase is the identity on POSIX). The candidate properties therefore assume fields free of `*`, `?` and `[` (`Candidates.PlainFields`): a `--version` holding `[` would make `fnmatch` read a character class that this model does not have.
- Strings.IsDigit: `\d` is ASCII `0`-`9` only. Python's `\d` on `str` also matches other Unicode decimal digits.
- Strings.Upper: maps ASCII letters only. Python's `str.upper` also maps other letters, and some of them to several characters. `--abi` is limited to `FALSE`/`TRUE` by its argument parser, so only ASCII input reaches it.
- Printing and warnings are not modelled: the JSON report of `plan`, the platform warning, the hints and the progress lines of `install`.
- The `dry` parameter of `plan` is not modelled, because it does not influence `plan`.
- `doctor`, the `uninstall` command, `main` and the argument parsing are not modelled.
- Detect.DetectTorch: does not model what `bool(...)` does to a non-boolean `_GLIBCXX_USE_CXX11_ABI` value. The flag arrives as its truth value.

=== FILE: candidates.dfy ===
/** The ordered list of wheel file-name patterns tried for one environment. */
module Candidates {

  import opened Strings
  import opened Glob

  /** `cxx11abiFALSE` or `cxx11abiTRUE`; one of the two is always present. */
  function AbiToken(abiFalse: bool): string {
    if abiFalse then "cxx11abiFALSE" else "cxx11abiTRUE"
  }

  /** The local version label of a flash_attn build: compute tag, torch
      major.minor and ABI token run together (`cu121torch2.5cxx11abiFALSE`). */
  function BuildLabel(cuTag: string, torchMM: string, abiFalse: bool): string {
    cuTag + "torch" + torchMM + AbiToken(abiFalse)
  }

  /** A wheel file name up to and including the dash after its Python tag. */
  function RelaxedPrefix(version: string, local: string, pyTag: string): string {
    "flash_attn-" + version + "+" + local + "-" + pyTag + "-"
  }

  /** A wheel file name `{distribution}-{version}+{local}-{python tag}-{abi tag}-{platform}.whl`. */
  function WheelName(version: string, local: string, pyTag: string, abiTag: string, plat: string): string {
    RelaxedPrefix(version, local, pyTag) + abiTag + "-" + plat + ".whl"
  }

  /** `candidate_wheel_names`: the exact wheel name; the same with the compute
      tag spelled `cu12`; and the exact name's prefix up to the Python tag,
      then anything, then `.whl`. */
  function CandidateWheelNames(version: string, cuTag: string, torchMM: string, pyTag: string,
                               abiFalse: bool, plat: string): (r: seq<string>)
    ensures |r| == 3
    ensures r[0] == WheelName(version, BuildLabel(cuTag, torchMM, abiFalse), pyTag, pyTag, plat)
    ensures r[1] == WheelName(version, BuildLabel("cu12", torchMM, abiFalse), pyTag, pyTag, plat)
    ensures r[2] == RelaxedPrefix(version, BuildLabel(cuTag, torchMM, abiFalse), pyTag) + "*.whl"
  {
    var exact := BuildLabel(cuTag, torchMM, abiFalse);
    var major12 := BuildLabel("cu12", torchMM, abiFalse);
    var third := "flash_attn-" + version + "+" + exact + "-" + pyTag + "-*.whl";
    assert third == RelaxedPrefix(version, exact, pyTag) + "*.whl";
    [
      "flash_attn-" + version + "+" + exact + "-" + pyTag + "-" + pyTag + "-" + plat + ".whl",
      "flash_attn-" + version + "+" + major12 + "-" + pyTag + "-" + pyTag + "-" + plat + ".whl",
      third
    ]
  }

  /** An example: flash_attn 2.5.8 for cu121, torch 2.5, the FALSE ABI, CPython 3.10 on Linux x86_64. */
  lemma FirstCandidateExample()
    ensures CandidateWheelNames("2.5.8", "cu121", "2.5", "cp310", true, "linux_x86_64")[0]
      == "flash_attn-2.5.8+cu121torch2.5cxx11abiFALSE-cp310-cp310-linux_x86_64.whl"
  {
    var prefix := "flash_attn-2.5.8+cu121torch2.5cxx11abiFALSE-cp310-";
    ExampleLabel();
    ExamplePrefix();
    assert WheelName("2.5.8", "cu121torch2.5cxx11abiFALSE", "cp310", "cp310", "linux_x86_64")
      == prefix + "cp310" + "-" + "linux_x86_64" + ".whl";
  }

  lemma ExampleLabel()
    ensures BuildLabel("cu121", "2.5", true) == "cu121torch2.5cxx11abiFALSE"
  {
    assert "cu121" + "torch" + "2.5" == "cu121torch2.5";
  }

  lemma ExamplePrefix()
    ensures RelaxedPrefix("2.5.8", "cu121torch2.5cxx11abiFALSE", "cp310")
      == "flash_attn-2.5.8+cu121torch2.5cxx11abiFALSE-cp310-"
  {
    assert "flash_attn-" + "2.5.8" + "+" == "flash_attn-2.5.8+";
    assert "flash_attn-2.5.8+" + "cu121torch2.5cxx11abiFALSE" == "flash_attn-2.5.8+cu121torch2.5cxx11abiFALSE";
    assert "flash_attn-2.5.8+cu121torch2.5cxx11abiFALSE" + "-" + "cp310" + "-"
      == "flash_attn-2.5.8+cu121torch2.5cxx11abiFALSE-cp310-";
  }

  /** The second pattern ignores the detected compute tag: it always says `cu12`. */
  lemma SecondIgnoresCuTag(version: string, cu1: string, cu2: string, torchMM: string, pyTag: string,
                           abiFalse: bool, plat: string)
    ensures CandidateWheelNames(version, cu1, torchMM, pyTag, abiFalse, plat)[1]
      == CandidateWheelNames(version, cu2, torchMM, pyTag, abiFalse, plat)[1]
  {
  }

  /** Environment fields that contain no glob wildcard: no `*`, no `?`, and
      no `[`, which `fnmatch` would read as the start of a character class. */
  predicate PlainFields(version: string, cuTag: string, torchMM: string, pyTag: string, plat: string) {
    && Literal(version) && Literal(cuTag) && Literal(torchMM) && Literal(pyTag) && Literal(plat)
    && '[' !in version + cuTag + torchMM + pyTag + plat
  }

  /** The fixed text of the patterns holds no wildcard. */
  lemma FixedTextLiteral()
    ensures Literal("flash_attn-") && Literal("+") && Literal("-") && Literal(".whl")
    ensures Literal("torch") && Literal("cu12") && Literal(AbiToken(true)) && Literal(AbiToken(false))
  {
  }

  /** Built from wildcard-free fields, the local version label and the prefix are wildcard-free. */
  lemma PrefixLiteral(version: string, cuTag: string, torchMM: string, pyTag: string, abiFalse: bool)
    requires Literal(version) && Literal(cuTag) && Literal(torchMM) && Literal(pyTag)
    ensures Literal(BuildLabel(cuTag, torchMM, abiFalse))
    ensures Literal(RelaxedPrefix(version, BuildLabel(cuTag, torchMM, abiFalse), pyTag))
  {
    FixedTextLiteral();
  }

  /** A wheel name built from wildcard-free parts is wildcard-free. */
  lemma WheelNameLiteral(version: string, local: string, pyTag: string, plat: string)
    requires Literal(RelaxedPrefix(version, local, pyTag)) && Literal(pyTag) && Literal(plat)
    ensures Literal(WheelName(version, local, pyTag, pyTag, plat))
  {
    FixedTextLiteral();
  }

  /** What each pattern accepts: the first two exactly one wheel name each,
      the third every name that starts with its prefix and ends in `.whl`. */
  lemma CandidatesAccept(version: string, cuTag: string, torchMM: string, pyTag: string,
                         abiFalse: bool, plat: string, name: string)
    requires PlainFields(version, cuTag, torchMM, pyTag, plat)
    ensures var r := CandidateWheelNames(version, cuTag, torchMM, pyTag, abiFalse, plat);
      && (Matches(name, r[0]) <==> name == r[0])
      && (Matches(name, r[1]) <==> name == r[1])
      && (Matches(name, r[2]) <==>
            var prefix := RelaxedPrefix(version, BuildLabel(cuTag, torchMM, abiFalse), pyTag);
            StartsWith(name, prefix) && EndsWith(name[|prefix|..], ".whl"))
  {
    var r := CandidateWheelNames(version, cuTag, torchMM, pyTag, abiFalse, plat);
    FixedTextLiteral();
    PrefixLiteral(version, cuTag, torchMM, pyTag, abiFalse);
    PrefixLiteral(version, "cu12", torchMM, pyTag, abiFalse);
    WheelNameLiteral(version, BuildLabel(cuTag, torchMM, abiFalse), pyTag, plat);
    WheelNameLiteral(version, BuildLabel("cu12", torchMM, abiFalse), pyTag, plat);
    LiteralMatchesItself(name, r[0]);
    LiteralMatchesItself(name, r[1]);
    var prefix := RelaxedPrefix(version, BuildLabel(cuTag, torchMM, abiFalse), pyTag);
    assert r[2] == prefix + ("*" + ".whl");
    LiteralHead(name, prefix, "*" + ".whl");
    if StartsWith(name, prefix) {
      StarThenLiteral(name[|prefix|..], ".whl");
    }
  }

  /** The third pattern relaxes the first: whatever the first accepts, so does the third. */
  lemma ThirdRelaxesFirst(version: string, cuTag: string, torchMM: string, pyTag: string,
                          abiFalse: bool, plat: string, name: string)
    requires PlainFields(version, cuTag, torchMM, pyTag, plat)
    ensures var r := CandidateWheelNames(version, cuTag, torchMM, pyTag, abiFalse, plat);
      Matches(name, r[0]) ==> Matches(name, r[2])
  {
    var r := CandidateWheelNames(version, cuTag, torchMM, pyTag, abiFalse, plat);
    CandidatesAccept(version, cuTag, torchMM, pyTag, abiFalse, plat, name);
    if Matches(name, r[0]) {
      var local := BuildLabel(cuTag, torchMM, abiFalse);
      var prefix := RelaxedPrefix(version, local, pyTag);
      TailSplit(prefix, pyTag, plat);
      assert name[|prefix|..] == pyTag + "-" + plat + ".whl";
    }
  }

  /** The third pattern pins neither the ABI tag nor the platform: a wheel
      for any other platform with the same local and Python tag passes it. */
  lemma ThirdIgnoresPlatform(version: string, cuTag: string, torchMM: string, pyTag: string,
                             abiFalse: bool, plat: string, otherAbi: string, otherPlat: string)
    requires PlainFields(version, cuTag, torchMM, pyTag, plat)
    ensures Matches(WheelName(version, BuildLabel(cuTag, torchMM, abiFalse), pyTag, otherAbi, otherPlat),
                    CandidateWheelNames(version, cuTag, torchMM, pyTag, abiFalse, plat)[2])
  {
    var local := BuildLabel(cuTag, torchMM, abiFalse);
    var name := WheelName(version, local, pyTag, otherAbi, otherPlat);
    var prefix := RelaxedPrefix(version, local, pyTag);
    CandidatesAccept(version, cuTag, torchMM, pyTag, abiFalse, plat, name);
    TailSplit(prefix, otherAbi, otherPlat);
    assert name[|prefix|..] == otherAbi + "-" + otherPlat + ".whl";
  }

  /** Regrouping a wheel name as its prefix followed by the rest. */
  lemma TailSplit(prefix: string, abiTag: string, plat: string)
    ensures prefix + abiTag + "-" + plat + ".whl" == prefix + (abiTag + "-" + plat + ".whl")
  {
  }

  /** No pattern accepts the empty name: each spells out the distribution name. */
  lemma NoPatternAcceptsEmptyName(version: string, cuTag: string, torchMM: string, pyTag: string,
                                  abiFalse: bool, plat: string)
    ensures forall p :: p in CandidateWheelNames(version, cuTag, torchMM, pyTag, abiFalse, plat) ==> !Matches("", p)
  {
    var r := CandidateWheelNames(version, cuTag, torchMM, pyTag, abiFalse, plat);
    assert 'f' in "flash_attn-";
    assert 'f' in r[0] && 'f' in r[1] && 'f' in r[2];
    EmptyNameNeedsOnlyStars(r[0], 'f');
    EmptyNameNeedsOnlyStars(r[1], 'f');
    EmptyNameNeedsOnlyStars(r[2], 'f');
  }
}

=== FILE: catalog.dfy ===
/** The release registry as the installer sees it: release entries with
    their assets, the two fetch modes, and the filter applied to the recent
    release listing. The HTTP exchange itself is given as a reply value. */
module Catalog {

  import opened Wrappers
  import opened Strings

  /** One downloadable file of a release: the `name` and
      `browser_download_url` keys of its JSON object, each possibly absent. */
  datatype Asset = Asset(name: Option<string>, downloadUrl: Option<string>)

  /** `a.get("name", "")`. */
  function NameOf(a: Asset): string {
    a.name.GetOr("")
  }

  /** One release object: its `tag_name` (possibly absent) and its `assets`
      (an absent key reads as the empty list). */
  datatype ReleaseEntry = ReleaseEntry(tagName: Option<string>, assets: seq<Asset>)

  /** `rel.get("tag_name", "").startswith("v")`. */
  predicate IsVersionTag(r: ReleaseEntry) {
    StartsWith(r.tagName.GetOr(""), "v")
  }

  /** The assets a release contributes to the recent listing. */
  function Contribution(r: ReleaseEntry): seq<Asset> {
    if IsVersionTag(r) then r.assets else []
  }

  /** The recent listing: the assets of every `v`-tagged release, release by
      release, in the registry's order, with nothing removed or reordered. */
  function RecentAssets(rs: seq<ReleaseEntry>): (r: seq<Asset>)
    ensures |r| <= AssetCount(rs)
  {
    if |rs| == 0 then [] else RecentAssets(rs[..|rs| - 1]) + Contribution(rs[|rs| - 1])
  }

  /** How many assets the releases carry in all, tagged or not. */
  function AssetCount(rs: seq<ReleaseEntry>): nat {
    if |rs| == 0 then 0 else AssetCount(rs[..|rs| - 1]) + |rs[|rs| - 1].assets|
  }

  /** The loop of `list_release_assets` over the listed releases. */
  method CollectRecent(rs: seq<ReleaseEntry>) returns (assets: seq<Asset>)
    ensures assets == RecentAssets(rs)
  {
    assets := [];
    var i := 0;
    while i < |rs|
      invariant 0 <= i <= |rs|
      invariant assets == RecentAssets(rs[..i])
    {
      var rel := rs[i];
      assert rs[..i + 1][..i] == rs[..i];
      if !StartsWith(rel.tagName.GetOr(""), "v") {
        i := i + 1;
        continue;
      }
      assets := assets + rel.assets;
      i := i + 1;
    }
    assert rs[..i] == rs;
  }

  /** The listing of two runs of releases is the listing of the first followed by that of the second. */
  lemma {:induction false} RecentAssetsAppend(xs: seq<ReleaseEntry>, ys: seq<ReleaseEntry>)
    ensures RecentAssets(xs + ys) == RecentAssets(xs) + RecentAssets(ys)
    decreases |ys|
  {
    if |ys| == 0 {
      assert xs + ys == xs;
    } else {
      var last := ys[|ys| - 1];
      assert (xs + ys)[..|xs + ys| - 1] == xs + ys[..|ys| - 1];
      RecentAssetsAppend(xs, ys[..|ys| - 1]);
    }
  }

  /** An asset is listed exactly when some `v`-tagged release carries it. */
  lemma {:induction false} RecentAssetsMembers(rs: seq<ReleaseEntry>, a: Asset)
    ensures a in RecentAssets(rs) <==>
      exists i :: 0 <= i < |rs| && IsVersionTag(rs[i]) && a in rs[i].assets
    decreases |rs|
  {
    if |rs| > 0 {
      var init := rs[..|rs| - 1];
      RecentAssetsMembers(init, a);
      if a in RecentAssets(rs) {
        if a in RecentAssets(init) {
          var i :| 0 <= i < |init| && IsVersionTag(init[i]) && a in init[i].assets;
          assert rs[i] == init[i];
        }
      }
      if exists i :: 0 <= i < |rs| && IsVersionTag(rs[i]) && a in rs[i].assets {
        var i :| 0 <= i < |rs| && IsVersionTag(rs[i]) && a in rs[i].assets;
        if i < |rs| - 1 {
          assert init[i] == rs[i];
        }
      }
    }
  }

  /** Nothing is deduplicated or reordered: two kept releases contribute
      their asset lists back to back, even when the lists share entries. */
  lemma KeptPairConcatenated(r1: ReleaseEntry, r2: ReleaseEntry)
    requires IsVersionTag(r1) && IsVersionTag(r2)
    ensures RecentAssets([r1, r2]) == r1.assets + r2.assets
  {
    assert [r1, r2][..1] == [r1];
    assert [r1][..0] == [];
    assert RecentAssets([r1]) == [] + r1.assets;
    assert RecentAssets([r1, r2]) == RecentAssets([r1]) + r2.assets;
  }

  /** A release without a `tag_name`, or with one not starting with `v`, adds nothing. */
  lemma UntaggedSkipped(rs: seq<ReleaseEntry>, r: ReleaseEntry)
    requires !IsVersionTag(r)
    ensures RecentAssets(rs + [r]) == RecentAssets(rs)
  {
    assert (rs + [r])[..|rs|] == rs;
  }

  /** `raise_for_status` raises for the 4xx and 5xx status codes. */
  predicate IsHttpError(status: int) {
    400 <= status < 600
  }

  /** The answer to `GET .../releases/tags/v{version}`: a status code and the
      release's `assets` (empty when the key is absent). */
  datatype TagReply = TagReply(status: int, assets: seq<Asset>)

  /** The answer to `GET .../releases?per_page=10`. */
  datatype ListReply = ListReply(status: int, releases: seq<ReleaseEntry>)

  /** The registry, as the replies it would give. */
  datatype Registry = Registry(tagged: string -> TagReply, recent: ListReply)

  /** `list_release_assets`: by tag when a non-empty version is given, else
      from the recent listing. A 404 on the tagged release is an empty list;
      any other error status is raised. */
  function ListReleaseAssets(reg: Registry, version: Option<string>): (r: Result<seq<Asset>, int>)
    ensures Truthy(version) && reg.tagged(version.value).status == 404 ==> r == Success([])
    ensures Truthy(version) && reg.tagged(version.value).status != 404 ==>
      (r.Failure? <==> IsHttpError(reg.tagged(version.value).status))
    ensures Truthy(version) && r.Success? && reg.tagged(version.value).status != 404 ==>
      r.value == reg.tagged(version.value).assets
    ensures !Truthy(version) ==> (r.Failure? <==> IsHttpError(reg.recent.status))
    ensures !Truthy(version) && r.Success? ==> r.value == RecentAssets(reg.recent.releases)
    ensures r.Failure? ==> IsHttpError(r.error)
  {
    if Truthy(version) then
      var reply := reg.tagged(version.value);
      if reply.status == 404 then Success([])
      else if IsHttpError(reply.status) then Failure(reply.status)
      else Success(reply.assets)
    else
      var reply := reg.recent;
      if IsHttpError(reply.status) then Failure(reply.status)
      else Success(RecentAssets(reply.releases))
  }
}

=== FILE: detect.dfy ===
/** The host detectors: interpreter tag, the installed torch build, and the
    platform tag. What the host reports (`sys.version_info`, the torch
    module's attributes, `sys.platform`, `platform.machine()`,
    `platform.system()`) arrives as plain input values. */
module Detect {

  import opened Wrappers
  import opened Strings

  /** `detect_python_tag`: `cp{major}{minor}`. */
  function PythonTag(major: nat, minor: nat): (r: string)
    ensures StartsWith(r, "cp")
    ensures |r| >= 4 && AllDigits(r[2..])
  {
    "cp" + Decimal(major) + Decimal(minor)
  }

  /** For a one-digit major version the tag can be read back unambiguously. */
  lemma PythonTagReadBack(major: nat, minor: nat)
    requires major < 10
    ensures PythonTag(major, minor)[2] as int - '0' as int == major
    ensures AllDigits(PythonTag(major, minor)[3..])
    ensures DigitsValue(PythonTag(major, minor)[3..]) == minor
  {
    var r := PythonTag(major, minor);
    assert r[3..] == Decimal(minor);
    DecimalRoundTrip(minor);
  }

  /** With a two-digit major version the tag is ambiguous: 3.11 and 31.1 share one. */
  lemma PythonTagAmbiguous()
    ensures PythonTag(3, 11) == PythonTag(31, 1)
  {
  }

  /** How reading `torch._C._GLIBCXX_USE_CXX11_ABI` went. */
  datatype AbiProbe =
    | AbiImportFailed        // `from torch import _C` raised
    | AbiAttrMissing         // `getattr(..., 0)` fell back to 0
    | AbiAttr(flag: bool)    // the attribute's truth value

  /** What importing torch showed. */
  datatype TorchProbe =
    | TorchMissing
    | TorchFound(version: string, cuda: Option<string>, abi: AbiProbe)

  /** The triple `detect_torch` returns. */
  datatype TorchInfo = TorchInfo(majorMinor: Option<string>, cuTag: Option<string>, abi: Option<bool>)

  /** The torch-reported CUDA version as a compute tag: `cu` followed by the
      version with every `.` removed; none for CPU-only or ROCm builds. */
  function TorchCuTag(cuda: Option<string>): (r: Option<string>)
    ensures r.Some? <==> cuda.Some?
    ensures r.Some? ==> StartsWith(r.value, "cu") && r.value[2..] == DeleteAll(cuda.value, '.')
    ensures r.Some? ==> '.' !in r.value[2..]
    ensures r.Some? ==> forall c {:trigger multiset(r.value[2..])[c]} :: c != '.' ==>
      multiset(r.value[2..])[c] == multiset(cuda.value)[c]
  {
    match cuda
    case None => None
    case Some(raw) =>
      var t := "cu" + DeleteAll(raw, '.');
      assert t[2..] == DeleteAll(raw, '.');
      Some(t)
  }

  /** The torch compute tag is a non-empty string exactly when torch reports a CUDA version. */
  lemma TorchTagTruthy(cuda: Option<string>)
    ensures Truthy(TorchCuTag(cuda)) <==> cuda.Some?
  {
    if cuda.Some? {
      assert StartsWith(TorchCuTag(cuda).value, "cu");
    }
  }

  /** A dotted `X.Y` version becomes `cuXY`. */
  lemma TorchCuTagDotted(x: string, y: string)
    requires AllDigits(x) && AllDigits(y)
    ensures TorchCuTag(Some(x + "." + y)) == Some("cu" + x + y)
  {
    NoDotInDigits(x);
    NoDotInDigits(y);
    var d := DeleteAll(".", '.');
    assert d == "" by {
      assert DeleteAll(".", '.') == "" + DeleteAll("", '.');
    }
    DeleteAllConcat(x, ".", '.');
    DeleteAllAbsent(x, '.');
    var left := DeleteAll(x + ".", '.');
    assert left == x;
    DeleteAllConcat(x + ".", y, '.');
    DeleteAllAbsent(y, '.');
    assert DeleteAll(x + "." + y, '.') == x + y;
    assert "cu" + (x + y) == "cu" + x + y;
  }

  lemma NoDotInDigits(s: string)
    requires AllDigits(s)
    ensures '.' !in s
  {
  }

  /** `detect_torch`. `versionOf` stands for `packaging.version.Version`:
      it yields the release's major and minor numbers, or none when the
      string is not a valid version. */
  function DetectTorch(probe: TorchProbe, versionOf: string -> Option<(nat, nat)>): (r: TorchInfo)
    ensures probe.TorchMissing? ==> r == TorchInfo(None, None, None)
    ensures r.majorMinor.None? <==> probe.TorchMissing?
    ensures probe.TorchFound? ==>
      var base := BeforeFirst(probe.version, '+');
      match versionOf(base)
      case Some(mm) => r.majorMinor == Some(Decimal(mm.0) + "." + Decimal(mm.1))
      case None => r.majorMinor == Some(base)
    ensures probe.TorchFound? ==> r.cuTag == TorchCuTag(probe.cuda)
    ensures probe.TorchFound? && probe.abi.AbiAttr? ==> r.abi == Some(probe.abi.flag)
    ensures probe.TorchFound? ==> (r.abi.None? <==> probe.abi.AbiImportFailed?)
    ensures probe.TorchFound? && probe.abi.AbiAttrMissing? ==> r.abi == Some(false)
  {
    match probe
    case TorchMissing => TorchInfo(None, None, None)
    case TorchFound(version, cuda, abiProbe) =>
      var ver := BeforeFirst(version, '+');
      var mm :=
        match versionOf(ver)
        case Some(v) => Decimal(v.0) + "." + Decimal(v.1)
        case None => ver;
      var abi :=
        match abiProbe
        case AbiImportFailed => None
        case AbiAttrMissing => Some(false)
        case AbiAttr(flag) => Some(flag);
      TorchInfo(Some(mm), TorchCuTag(cuda), abi)
  }

  const PrimaryPlatform := "linux_x86_64"

  /** `detect_platform`, as a function of `sys.platform`, `platform.machine()`
      and `platform.system()`. */
  function DetectPlatform(sysPlatform: string, machine: string, system: string): (r: string)
    ensures StartsWith(sysPlatform, "linux") && machine == "x86_64" ==> r == PrimaryPlatform
    ensures !(StartsWith(sysPlatform, "linux") && machine == "x86_64") && StartsWith(sysPlatform, "win")
      ==> r == "win_amd64"
    ensures sysPlatform == "darwin" ==> r == "macosx"
    ensures var other := !(StartsWith(sysPlatform, "linux") && machine == "x86_64")
                         && !StartsWith(sysPlatform, "win") && sysPlatform != "darwin";
      other ==> r == system
    ensures r in {PrimaryPlatform, "win_amd64", "macosx", system}
  {
    if StartsWith(sysPlatform, "linux") && machine == "x86_64" then PrimaryPlatform
    else if StartsWith(sysPlatform, "win") then
      assert sysPlatform != "darwin" by {
        assert sysPlatform[0] == 'w';
      }
      "win_amd64"
    else if sysPlatform == "darwin" then "macosx"
    else system
  }

  /** Linux on any other machine (aarch64, say) falls through to the raw system name. */
  lemma LinuxElsewhereIsRaw(sysPlatform: string, machine: string, system: string)
    requires StartsWith(sysPlatform, "linux") && machine != "x86_64"
    ensures DetectPlatform(sysPlatform, machine, system) == system
  {
    assert sysPlatform[0] == 'l';
  }

  /** The primary tag comes only from Linux on x86_64, unless the raw system name is that tag. */
  lemma PrimaryOnlyFromLinuxX86(sysPlatform: string, machine: string, system: string)
    requires system != PrimaryPlatform
    requires DetectPlatform(sysPlatform, machine, system) == PrimaryPlatform
    ensures StartsWith(sysPlatform, "linux") && machine == "x86_64"
  {
  }
}

=== FILE: glob.dfy ===
/** The part of `fnmatch.fnmatch` the installer relies on: `*` matches any
    run of characters (including none), `?` matches exactly one character,
    and every other character matches itself. */
module Glob {

  import opened Strings

  /** A pattern without wildcards. */
  predicate Literal(p: string) {
    '*' !in p && '?' !in p
  }

  /** `fnmatch.fnmatch(name, pat)`, restricted to `*`, `?` and literal characters.
      Every character of the pattern other than `*` consumes exactly one
      character of the name, so a name that matches is at least that long,
      and exactly that long when the pattern has no `*`. */
  predicate Matches(name: string, pat: string)
    ensures Matches(name, pat) && '*' !in pat ==> |name| == |pat|
    decreases |name| + |pat|
  {
    if |pat| == 0 then |name| == 0
    else
      assert pat == [pat[0]] + pat[1..];
      if pat[0] == '*' then
        Matches(name, pat[1..]) || (|name| > 0 && Matches(name[1..], pat))
      else
        |name| > 0 && (pat[0] == '?' || pat[0] == name[0]) && Matches(name[1..], pat[1..])
  }

  /** Each character of the pattern other than `*` consumes one character of
      the name, so a matching name is at least as long as those characters. */
  lemma {:induction false} MatchConsumesNonStars(name: string, pat: string)
    requires Matches(name, pat)
    ensures |name| >= |pat| - multiset(pat)['*']
    decreases |name| + |pat|
  {
    if |pat| > 0 {
      assert pat == [pat[0]] + pat[1..];
      if pat[0] == '*' {
        if Matches(name, pat[1..]) {
          MatchConsumesNonStars(name, pat[1..]);
        } else {
          MatchConsumesNonStars(name[1..], pat);
        }
      } else {
        MatchConsumesNonStars(name[1..], pat[1..]);
      }
    }
  }

  /** A pattern without wildcards matches exactly the one name equal to it. */
  lemma {:induction false} LiteralMatchesItself(name: string, p: string)
    requires Literal(p)
    ensures Matches(name, p) <==> name == p
    decreases |p|
  {
    if |p| > 0 {
      assert p == [p[0]] + p[1..];
      if |name| > 0 {
        LiteralMatchesItself(name[1..], p[1..]);
        assert name == [name[0]] + name[1..];
        assert p == [p[0]] + p[1..];
      }
    }
  }

  /** A literal head of a pattern consumes the same characters from the front of the name. */
  lemma {:induction false} LiteralHead(name: string, l: string, q: string)
    requires Literal(l)
    ensures Matches(name, l + q) <==> StartsWith(name, l) && Matches(name[|l|..], q)
    decreases |l|
  {
    if |l| == 0 {
      assert l + q == q;
    } else {
      assert l == [l[0]] + l[1..];
      assert (l + q)[0] == l[0];
      assert (l + q)[1..] == l[1..] + q;
      if |name| > 0 {
        LiteralHead(name[1..], l[1..], q);
        if |l| <= |name| {
          assert name[1..][|l| - 1..] == name[|l|..];
        }
        assert StartsWith(name, l) <==> name[0] == l[0] && StartsWith(name[1..], l[1..]) by {
          if StartsWith(name, l) {
            assert name[1..][..|l| - 1] == name[..|l|][1..];
          }
          if name[0] == l[0] && StartsWith(name[1..], l[1..]) {
            assert name[..|l|] == [name[0]] + name[1..][..|l| - 1];
            assert l == [l[0]] + l[1..];
          }
        }
      }
    }
  }

  /** A leading `*` before a literal tail accepts exactly the names ending in that tail. */
  lemma {:induction false} StarThenLiteral(name: string, l: string)
    requires Literal(l)
    ensures Matches(name, "*" + l) <==> EndsWith(name, l)
    decreases |name|
  {
    var p := "*" + l;
    assert p[1..] == l;
    LiteralMatchesItself(name, l);
    if |name| > 0 {
      StarThenLiteral(name[1..], l);
      if |l| < |name| {
        assert name[1..][|name| - 1 - |l|..] == name[|name| - |l|..];
      }
    }
  }

  /** `*` alone accepts every name. */
  lemma {:induction false} StarAcceptsAll(name: string)
    ensures Matches(name, "*")
    decreases |name|
  {
    if |name| > 0 {
      StarAcceptsAll(name[1..]);
    }
  }

  /** Only a pattern made of stars alone accepts the empty name. */
  lemma {:induction false} EmptyNameNeedsOnlyStars(pat: string, c: char)
    requires c in pat && c != '*'
    ensures !Matches("", pat)
    decreases |pat|
  {
    if pat[0] == '*' {
      assert c in pat[1..] by {
        assert pat == [pat[0]] + pat[1..];
      }
      EmptyNameNeedsOnlyStars(pat[1..], c);
    }
  }
}

=== FILE: nvcc.dfy ===
/** Reading the CUDA release out of `nvcc -V` output: the first match of the
    regular expression `release\s+(\d+)\.(\d+)`, turned into `cu{X}{Y}`. */
module Nvcc {

  import opened Wrappers
  import opened Strings

  const Keyword := "release"

  /** The two character classes of the pattern. */
  datatype CharClass = Space | Digit

  predicate In(k: CharClass, c: char) {
    match k
    case Space => IsSpace(c)
    case Digit => IsDigit(c)
  }

  /** Length of the longest run of characters of class `p` starting at `i`
      (what a greedy `+` consumes). */
  function Span(s: string, i: nat, p: CharClass): (n: nat)
    requires i <= |s|
    ensures i + n <= |s|
    decreases |s| - i
  {
    if i < |s| && In(p, s[i]) then 1 + Span(s, i + 1, p) else 0
  }

  /** The span is a run of class `p` that cannot be extended. */
  lemma {:induction false} SpanMaximal(s: string, i: nat, p: CharClass)
    requires i <= |s|
    ensures forall k :: i <= k < i + Span(s, i, p) ==> In(p, s[k])
    ensures i + Span(s, i, p) == |s| || !In(p, s[i + Span(s, i, p)])
    decreases |s| - i
  {
    if i < |s| && In(p, s[i]) {
      SpanMaximal(s, i + 1, p);
    }
  }

  /** A run that is all `p` and stops at a non-`p` character is the span. */
  lemma {:induction false} SpanUnique(s: string, i: nat, p: CharClass, n: nat)
    requires i + n <= |s|
    requires forall k :: i <= k < i + n ==> In(p, s[k])
    requires i + n == |s| || !In(p, s[i + n])
    ensures Span(s, i, p) == n
    decreases n
  {
    if n > 0 {
      SpanUnique(s, i + 1, p, n - 1);
    }
  }

  /** The three pieces the pattern captures or consumes after `release`. */
  datatype Release = Release(space: string, major: string, minor: string)

  /** `\s+(\d+)\.(\d+)` matches from index `a` of `out`, as `m`: a non-empty
      whitespace run, a non-empty digit group, a dot and a second non-empty
      digit group, which is greedy (no digit follows it). */
  predicate GroupsAt(out: string, a: nat, m: Release) {
    var b := a + |m.space|;
    var c := b + |m.major|;
    var d := c + 1 + |m.minor|;
    && d <= |out|
    && out[a..b] == m.space && |m.space| > 0 && AllSpace(m.space)
    && out[b..c] == m.major && |m.major| > 0 && AllDigits(m.major)
    && out[c] == '.'
    && out[c + 1..d] == m.minor && |m.minor| > 0 && AllDigits(m.minor)
    && (d == |out| || !IsDigit(out[d]))
  }

  /** `release\s+(\d+)\.(\d+)` matches at index `i` of `out`, as `m`. */
  predicate MatchesAt(out: string, i: nat, m: Release) {
    && i + |Keyword| <= |out|
    && out[i..i + |Keyword|] == Keyword
    && GroupsAt(out, i + |Keyword|, m)
  }

  /** The regular expression tried at a single start index. */
  function MatchAt(out: string, i: nat): (r: Option<Release>)
    requires i <= |out|
    ensures r.Some? ==> MatchesAt(out, i, r.value)
  {
    if i + |Keyword| <= |out| && out[i..i + |Keyword|] == Keyword then
      AfterKeywordSound(out, i + |Keyword|);
      AfterKeyword(out, i + |Keyword|)
    else None
  }

  /** `\s+(\d+)\.(\d+)` tried from index `a`: each greedy run is taken whole. */
  function AfterKeyword(out: string, a: nat): Option<Release>
    requires a <= |out|
  {
    var b := a + Span(out, a, Space);
    var c := b + Span(out, b, Digit);
    if a < b && b < c && c < |out| && out[c] == '.' then
      var d := c + 1 + Span(out, c + 1, Digit);
      if c + 1 < d then Some(Release(out[a..b], out[b..c], out[c + 1..d]))
      else None
    else None
  }

  /** What `AfterKeyword` finds is a match of the groups. */
  lemma AfterKeywordSound(out: string, a: nat)
    requires a <= |out|
    ensures AfterKeyword(out, a).Some? ==> GroupsAt(out, a, AfterKeyword(out, a).value)
  {
    var b := a + Span(out, a, Space);
    var c := b + Span(out, b, Digit);
    if a < b && b < c && c < |out| && out[c] == '.' {
      var d := c + 1 + Span(out, c + 1, Digit);
      if c + 1 < d {
        assert AfterKeyword(out, a) == Some(Release(out[a..b], out[b..c], out[c + 1..d]));
        SpansFormGroups(out, a, b, c, d);
      } else {
        assert AfterKeyword(out, a) == None;
      }
    } else {
      assert AfterKeyword(out, a) == None;
    }
  }

  /** The three greedy runs, when non-empty and cut at a dot, form the groups. */
  lemma SpansFormGroups(out: string, a: nat, b: nat, c: nat, d: nat)
    requires a <= |out| && b == a + Span(out, a, Space) && b <= |out| && c == b + Span(out, b, Digit)
    requires a < b < c < |out| && out[c] == '.' && d == c + 1 + Span(out, c + 1, Digit) && c + 1 < d
    ensures GroupsAt(out, a, Release(out[a..b], out[b..c], out[c + 1..d]))
  {
    SpanPiece(out, a, Space);
    SpanPiece(out, b, Digit);
    SpanPiece(out, c + 1, Digit);
    GroupsFromPieces(out, a, b, c, d);
  }

  /** Three runs of the right classes, cut at the dot and not followed by a digit, form the groups. */
  lemma GroupsFromPieces(out: string, a: nat, b: nat, c: nat, d: nat)
    requires a < b < c && c + 1 < d <= |out| && out[c] == '.'
    requires AllSpace(out[a..b]) && AllDigits(out[b..c]) && AllDigits(out[c + 1..d])
    requires d == |out| || !IsDigit(out[d])
    ensures GroupsAt(out, a, Release(out[a..b], out[b..c], out[c + 1..d]))
  {
  }

  /** The run a greedy `+` takes is made of characters of its class. */
  lemma SpanPiece(out: string, i: nat, p: CharClass)
    requires i <= |out|
    ensures var piece := out[i..i + Span(out, i, p)];
      && (p == Space ==> AllSpace(piece))
      && (p == Digit ==> AllDigits(piece))
    ensures i + Span(out, i, p) == |out| || !In(p, out[i + Span(out, i, p)])
  {
    SpanMaximal(out, i, p);
    var piece := out[i..i + Span(out, i, p)];
    forall k | 0 <= k < |piece| ensures In(p, piece[k]) {
      assert piece[k] == out[i + k];
    }
  }

  /** Every way the groups can match from `a` is the one `AfterKeyword` finds. */
  lemma AfterKeywordComplete(out: string, a: nat, m: Release)
    requires GroupsAt(out, a, m)
    ensures AfterKeyword(out, a) == Some(m)
  {
    var b := a + |m.space|;
    var c := b + |m.major|;
    var d := c + 1 + |m.minor|;
    assert out[b] == m.major[0];
    DigitIsNotSpace(out[b]);
    RunIsSpan(out, a, m.space, Space);
    RunIsSpan(out, b, m.major, Digit);
    RunIsSpan(out, c + 1, m.minor, Digit);
    AfterKeywordCuts(out, a, b, c, d);
  }

  /** A piece of `out` made of class-`p` characters and not followed by one is the span there. */
  lemma RunIsSpan(out: string, start: nat, piece: string, p: CharClass)
    requires start + |piece| <= |out| && out[start..start + |piece|] == piece
    requires forall k :: 0 <= k < |piece| ==> In(p, piece[k])
    requires start + |piece| == |out| || !In(p, out[start + |piece|])
    ensures Span(out, start, p) == |piece|
  {
    forall k | start <= k < start + |piece| ensures In(p, out[k]) {
      assert out[k] == piece[k - start];
    }
    SpanUnique(out, start, p, |piece|);
  }

  lemma AfterKeywordCuts(out: string, a: nat, b: nat, c: nat, d: nat)
    requires a < b < c && c + 1 < d <= |out| && out[c] == '.'
    requires Span(out, a, Space) == b - a
    requires Span(out, b, Digit) == c - b
    requires Span(out, c + 1, Digit) == d - c - 1
    ensures AfterKeyword(out, a) == Some(Release(out[a..b], out[b..c], out[c + 1..d]))
  {
    var b' := a + Span(out, a, Space);
    var c' := b' + Span(out, b', Digit);
    var d' := c' + 1 + Span(out, c' + 1, Digit);
    assert b' == b && c' == c && d' == d;
  }

  /** Every way the pattern can match at `i` is the one `MatchAt` finds. */
  lemma MatchAtComplete(out: string, i: nat, m: Release)
    requires MatchesAt(out, i, m)
    ensures MatchAt(out, i) == Some(m)
  {
    AfterKeywordComplete(out, i + |Keyword|, m);
  }

  /** The match found at `i` is the only one there. */
  lemma MatchesAtUnique(out: string, i: nat, m: Release, m': Release)
    requires MatchesAt(out, i, m) && MatchesAt(out, i, m')
    ensures m == m'
  {
    MatchAtComplete(out, i, m);
    MatchAtComplete(out, i, m');
  }

  /** `re.search`: the leftmost start index at or after `i` where the pattern matches. */
  function SearchFrom(out: string, i: nat): (r: Option<(nat, Release)>)
    requires i <= |out|
    ensures r.Some? ==> i <= r.value.0 <= |out| && MatchesAt(out, r.value.0, r.value.1)
    ensures r.Some? ==> forall j, m :: i <= j < r.value.0 ==> !MatchesAt(out, j, m)
    ensures r.None? ==> forall j, m :: i <= j ==> !MatchesAt(out, j, m)
    decreases |out| - i
  {
    var here := MatchAt(out, i);
    if here.Some? then Some((i, here.value))
    else
      assert forall m :: !MatchesAt(out, i, m) by {
        forall m | MatchesAt(out, i, m) ensures false {
          MatchAtComplete(out, i, m);
        }
      }
      if i == |out| then None else SearchFrom(out, i + 1)
  }

  /** `get_nvcc_version` once the command has run: `cu{X}{Y}` from the first
      match, or none. */
  function NvccTag(out: string): (r: Option<string>)
    ensures r.Some? ==> StartsWith(r.value, "cu") && |r.value| >= 4 && AllDigits(r.value[2..])
    ensures r.None? <==> forall j, m :: !MatchesAt(out, j, m)
  {
    match SearchFrom(out, 0)
    case None => None
    case Some(found) =>
      var m := found.1;
      var t := "cu" + m.major + m.minor;
      assert t[2..] == m.major + m.minor;
      Some(t)
  }

  /** The tag comes from the leftmost match: its digits are the ones captured
      there, and nothing matches further left. */
  lemma NvccTagLeftmost(out: string, j: nat, m: Release)
    requires MatchesAt(out, j, m)
    requires forall k: nat, m' :: k < j ==> !MatchesAt(out, k, m')
    ensures NvccTag(out) == Some("cu" + m.major + m.minor)
  {
    var found := SearchFrom(out, 0);
    assert found.Some?;
    if found.value.0 < j {
      assert false;
    }
    MatchesAtUnique(out, j, found.value.1, m);
  }

  /** A match can only start at an `r`. */
  lemma NoMatchWithoutR(out: string, i: nat, m: Release)
    requires i < |out| && out[i] != 'r'
    ensures !MatchesAt(out, i, m)
  {
    if i + |Keyword| <= |out| {
      assert out[i..i + |Keyword|][0] == out[i];
    }
  }

  /** "release 11, V11.8.89": `release 11` has no minor number, and the later
      "11.8" has no `release` before it, so nothing is read. */
  lemma MajorOnlyIsRejected()
    ensures NvccTag("release 11, V11.8.89") == None
  {
    var out := "release 11, V11.8.89";
    forall m ensures !MatchesAt(out, 0, m) {
      NoMinorAfterEleven(m);
    }
    assert 'r' !in out[1..];
    forall j: nat, m | j > 0 ensures !MatchesAt(out, j, m) {
      if j < |out| {
        assert out[j] == out[1..][j - 1];
        NoMatchWithoutR(out, j, m);
      }
    }
  }

  /** At the start of "release 11, V11.8.89" the digits `11` are followed by a comma. */
  lemma NoMinorAfterEleven(m: Release)
    ensures !MatchesAt("release 11, V11.8.89", 0, m)
  {
    var out := "release 11, V11.8.89";
    assert out[0..7] == Keyword;
    assert Span(out, 8, Space) == 0;
    assert Span(out, 7, Space) == 1;
    assert Span(out, 10, Digit) == 0;
    assert Span(out, 9, Digit) == 1;
    assert Span(out, 8, Digit) == 2;
    assert MatchAt(out, 0) == None;
    if MatchesAt(out, 0, m) {
      MatchAtComplete(out, 0, m);
    }
  }

  /** The keyword followed by well-formed groups, as it appears in the output. */
  function Text(m: Release): string {
    Keyword + (m.space + (m.major + ("." + m.minor)))
  }

  /** Output whose first `release X.Y` comes after text without an `r` gives `cuXY`. */
  lemma FirstReleaseAfter(pre: string, m: Release, post: string)
    requires 'r' !in pre
    requires |m.space| > 0 && AllSpace(m.space)
    requires |m.major| > 0 && AllDigits(m.major)
    requires |m.minor| > 0 && AllDigits(m.minor)
    requires |post| == 0 || !IsDigit(post[0])
    ensures NvccTag(pre + (Text(m) + post)) == Some("cu" + m.major + m.minor)
  {
    var out := pre + (Text(m) + post);
    var i := |pre|;
    var a := i + |Keyword|;
    var b := a + |m.space|;
    var c := b + |m.major|;
    var d := c + 1 + |m.minor|;
    assert out[i..] == Text(m) + post;
    assert out[i..a] == Keyword;
    assert out[a..b] == m.space;
    assert out[b..c] == m.major;
    assert out[c] == '.';
    assert out[c + 1..d] == m.minor;
    assert d == |out| || out[d] == post[0];
    assert MatchesAt(out, i, m);
    forall k: nat, m' | k < i ensures !MatchesAt(out, k, m') {
      assert out[k] == pre[k];
      NoMatchWithoutR(out, k, m');
    }
    NvccTagLeftmost(out, i, m);
  }

  /** The typical banner line, cut around its `release` clause. */
  lemma BannerPieces()
    ensures "Cuda compilation tools, release 12.1, V12.1.105"
         == "Cuda compilation tools, " + (Text(Release(" ", "12", "1")) + ", V12.1.105")
  {
    var pre, post := "Cuda compilation tools, ", ", V12.1.105";
    assert Text(Release(" ", "12", "1")) == "release 12.1";
    assert "Cuda compilation tools, release 12.1, V12.1.105" == pre + "release 12.1" + post;
    Assoc(pre, "release 12.1", post);
  }

  /** A typical banner line gives `cu121`. */
  lemma TypicalBanner()
    ensures NvccTag("Cuda compilation tools, release 12.1, V12.1.105") == Some("cu121")
  {
    var pre, post := "Cuda compilation tools, ", ", V12.1.105";
    var m := Release(" ", "12", "1");
    BannerPieces();
    assert 'r' !in pre && AllSpace(m.space) && AllDigits(m.major) && AllDigits(m.minor) && !IsDigit(post[0]);
    FirstReleaseAfter(pre, m, post);
    assert "cu" + m.major + m.minor == "cu121" by {
      assert "cu" + "12" == "cu12";
    }
  }
}

=== FILE: planner.dfy ===
/** The `plan` and `install` commands as decisions over what the host and
    the registry report. Side effects the commands would perform are
    recorded, in order, as a list of effects next to how the command ends. */
module Planner {

  import opened Wrappers
  import opened Strings
  import opened Detect
  import opened Resolve
  import opened Catalog
  import opened Candidates
  import opened Selection

  /** The flash_attn version used when none is given. */
  const DefaultVersion := "2.5.8"

  /** Everything the detectors read from the host. `nvccOutput` is the
      combined output of `nvcc -V`, or none when it cannot be run. */
  datatype Host = Host(
    pyMajor: nat, pyMinor: nat,
    torch: TorchProbe,
    sysPlatform: string, machine: string, system: string,
    nvccOutput: Option<string>)

  /** Side effects, in the order a command performs them. */
  datatype Effect =
    | RunNvcc                          // `nvcc -V`
    | FetchTagged(version: string)     // GET .../releases/tags/v{version}
    | FetchRecent                      // GET .../releases?per_page=10
    | PipUninstall                     // `pip uninstall flash-attn -y`, failure ignored
    | PipInstall(target: string)       // `pip install --no-cache-dir {target}`

  /** Exceptions that escape a command. */
  datatype Fault =
    | HttpError(status: int)   // `raise_for_status`
    | MissingDownloadUrl       // `asset["browser_download_url"]` raised KeyError
    | PipInstallFailed         // pip exited non-zero under `check=True`

  /** How a command ends: normally, through `sys.exit`, or with an exception. */
  datatype Ending<T> = Done(value: T) | Exit(code: int) | Raised(error: Fault)

  datatype Run<T> = Run(effects: seq<Effect>, ending: Ending<T>)

  /** What the detectors found, once a compute tag is settled. */
  datatype Environment = Environment(
    pyTag: string, torchMM: string, torchCuda: Option<string>, cuTag: string, platform: string)

  /** The resolved environment and choice `plan` reports. */
  datatype Decision = Decision(
    pyTag: string, torchMM: string, torchCuda: Option<string>, cuTag: string,
    abiFalse: bool, platform: string, version: string, patterns: seq<string>)

  datatype Planned = Planned(decision: Decision, asset: Option<Asset>)

  /** What `install` did once it had a wheel URL. */
  datatype Installed = DryRun(url: string) | InstalledFrom(url: string)

  /** `True if abi is None else (abi.upper() == "FALSE")`. */
  function AbiFalse(abi: Option<string>): (r: bool)
    ensures r <==> abi.None? || SpellsFalse(abi.value)
  {
    if abi.None? then true
    else
      UpperIsFalse(abi.value);
      Upper(abi.value) == "FALSE"
  }

  /** `version or "2.5.8"`. */
  function EffectiveVersion(version: Option<string>): (v: string)
    ensures |v| > 0
    ensures Truthy(version) ==> v == version.value
    ensures !Truthy(version) ==> v == DefaultVersion
  {
    if Truthy(version) then version.value else DefaultVersion
  }

  /** The query `plan` sends: by tag for a given version, else the recent listing. */
  function FetchFor(version: Option<string>): Effect {
    if Truthy(version) then FetchTagged(version.value) else FetchRecent
  }

  /** Side effects that install software. */
  predicate IsPip(e: Effect) {
    e.PipUninstall? || e.PipInstall?
  }

  /** The detection steps of `plan` (the interpreter tag, torch, the
      platform, the compute tag) and its two exits with code 2. The only
      effect is running nvcc, and only when torch reports no CUDA version. */
  function Detected(host: Host, versionOf: string -> Option<(nat, nat)>): (r: Run<Environment>)
    ensures host.torch.TorchMissing? ==> r == Run([], Exit(2))
    ensures r.effects == (if host.torch.TorchFound? && host.torch.cuda.None? then [RunNvcc] else [])
    ensures r.ending.Exit? ==> r.ending.code == 2
    ensures !r.ending.Raised?
    ensures r.ending.Exit? <==>
      !(host.torch.TorchFound? && (host.torch.cuda.Some? || NvccVersion(host.nvccOutput).Some?))
    ensures r.ending.Done? ==>
      && host.torch.TorchFound?
      && r.ending.value.pyTag == PythonTag(host.pyMajor, host.pyMinor)
      && r.ending.value.platform == DetectPlatform(host.sysPlatform, host.machine, host.system)
      && Some(r.ending.value.torchMM) == DetectTorch(host.torch, versionOf).majorMinor
      && r.ending.value.torchCuda == TorchCuTag(host.torch.cuda)
      && (host.torch.cuda.Some? ==> Some(r.ending.value.cuTag) == TorchCuTag(host.torch.cuda))
      && (host.torch.cuda.None? ==> Some(r.ending.value.cuTag) == NvccVersion(host.nvccOutput))
  {
    var py := PythonTag(host.pyMajor, host.pyMinor);
    var torch := DetectTorch(host.torch, versionOf);
    var plat := DetectPlatform(host.sysPlatform, host.machine, host.system);
    if torch.majorMinor.None? then Run([], Exit(2))
    else
      TorchTagTruthy(host.torch.cuda);
      var probe := if Truthy(torch.cuTag) then [] else [RunNvcc];
      var cu := PickCuTag(torch.cuTag, host.nvccOutput);
      if !Truthy(cu) then Run(probe, Exit(2))
      else Run(probe, Done(Environment(py, torch.majorMinor.value, torch.cuTag, cu.value, plat)))
  }

  /** `plan`. `versionOf` stands for `packaging.version.Version` (see `DetectTorch`). */
  function Plan(host: Host, versionOf: string -> Option<(nat, nat)>, reg: Registry,
                version: Option<string>, abi: Option<string>): (r: Run<Planned>)
    ensures host.torch.TorchMissing? ==> r == Run([], Exit(2))
    ensures r.ending.Exit? ==> r.ending.code == 2 && forall e :: e in r.effects ==> e == RunNvcc
    ensures r.ending.Exit? <==>
      !(host.torch.TorchFound? && (host.torch.cuda.Some? || NvccVersion(host.nvccOutput).Some?))
    ensures !r.ending.Exit? ==>
      r.effects == (if host.torch.cuda.None? then [RunNvcc] else []) + [FetchFor(version)]
    ensures !r.ending.Exit? ==>
      match ListReleaseAssets(reg, if Truthy(version) then version else None)
      case Failure(status) => r.ending == Raised(HttpError(status))
      case Success(_) => r.ending.Done?
    ensures forall e :: e in r.effects ==> !IsPip(e)
  {
    var g := Detected(host, versionOf);
    if g.ending.Exit? then Run(g.effects, Exit(g.ending.code))
    else Fetched(g.ending.value, g.effects, reg, version, abi)
  }

  /** The second half of `plan`, once the environment is known: fetch the
      release(s), build the patterns and pick the asset. An HTTP error
      status surfaces as an exception; every other reply yields a plan. */
  function Fetched(env: Environment, probes: seq<Effect>, reg: Registry,
                   version: Option<string>, abi: Option<string>): (r: Run<Planned>)
    ensures r.effects == probes + [FetchFor(version)]
    ensures match ListReleaseAssets(reg, if Truthy(version) then version else None)
      case Failure(status) => r.ending == Raised(HttpError(status))
      case Success(_) => r.ending.Done?
    ensures r.ending.Done? ==>
      var d := r.ending.value.decision;
      var fetched := ListReleaseAssets(reg, if Truthy(version) then version else None);
      && (d.pyTag, d.torchMM, d.torchCuda, d.cuTag, d.platform)
         == (env.pyTag, env.torchMM, env.torchCuda, env.cuTag, env.platform)
      && d.abiFalse == AbiFalse(abi)
      && d.version == EffectiveVersion(version)
      && d.patterns == CandidateWheelNames(d.version, d.cuTag, d.torchMM, d.pyTag, d.abiFalse, d.platform)
      && fetched.Success?
      && r.ending.value.asset == Select(fetched.value, d.patterns)
  {
    var abiFalse := AbiFalse(abi);
    var ver := EffectiveVersion(version);
    var effects := probes + [FetchFor(version)];
    var fetch := if Truthy(version) then Some(ver) else None;
    assert fetch == (if Truthy(version) then version else None);
    match ListReleaseAssets(reg, fetch)
    case Failure(status) => Run(effects, Raised(HttpError(status)))
    case Success(assets) =>
      var pats := CandidateWheelNames(ver, env.cuTag, env.torchMM, env.pyTag, abiFalse, env.platform);
      var d := Decision(env.pyTag, env.torchMM, env.torchCuda, env.cuTag, abiFalse, env.platform, ver, pats);
      Run(effects, Done(Planned(d, Select(assets, pats))))
  }

  /** nvcc is consulted exactly when torch is present without a CUDA version,
      and when it yields nothing either, `plan` exits with code 2 right after. */
  lemma PlanProbesNvcc(host: Host, versionOf: string -> Option<(nat, nat)>, reg: Registry,
                       version: Option<string>, abi: Option<string>)
    ensures var r := Plan(host, versionOf, reg, version, abi);
      && (RunNvcc in r.effects <==> host.torch.TorchFound? && host.torch.cuda.None?)
      && (var untagged := host.torch.TorchFound? && host.torch.cuda.None? && NvccVersion(host.nvccOutput).None?;
          untagged ==> r == Run([RunNvcc], Exit(2)))
  {
  }

  /** What a successful `plan` decided: the ABI token from `--abi`, the
      version with its default, the compute tag from torch or else from nvcc,
      the three patterns built from those, and the first hit among the assets
      of the release(s) fetched. */
  lemma PlanDecision(host: Host, versionOf: string -> Option<(nat, nat)>, reg: Registry,
                     version: Option<string>, abi: Option<string>)
    ensures
      var r := Plan(host, versionOf, reg, version, abi);
      r.ending.Done? ==>
        var d := r.ending.value.decision;
        var fetched := ListReleaseAssets(reg, if Truthy(version) then version else None);
        && host.torch.TorchFound?
        && d.pyTag == PythonTag(host.pyMajor, host.pyMinor)
        && d.platform == DetectPlatform(host.sysPlatform, host.machine, host.system)
        && Some(d.torchMM) == DetectTorch(host.torch, versionOf).majorMinor
        && d.abiFalse == (abi.None? || SpellsFalse(abi.value))
        && d.version == (if Truthy(version) then version.value else DefaultVersion)
        && (host.torch.cuda.Some? ==> Some(d.cuTag) == TorchCuTag(host.torch.cuda))
        && (host.torch.cuda.None? ==> Some(d.cuTag) == NvccVersion(host.nvccOutput))
        && d.patterns == CandidateWheelNames(d.version, d.cuTag, d.torchMM, d.pyTag, d.abiFalse, d.platform)
        && fetched.Success?
        && r.ending.value.asset == Select(fetched.value, d.patterns)
  {
    var g := Detected(host, versionOf);
    if !g.ending.Exit? {
      assert Plan(host, versionOf, reg, version, abi) == Fetched(g.ending.value, g.effects, reg, version, abi);
      if Truthy(version) {
        assert Some(EffectiveVersion(version)) == version;
      }
    }
  }

  /** The asset `plan` reports always has a non-empty name, so it is never
      an empty (false) JSON object: `not asset` means exactly "nothing found". */
  lemma PlannedAssetNamed(host: Host, versionOf: string -> Option<(nat, nat)>, reg: Registry,
                          version: Option<string>, abi: Option<string>)
    ensures
      var r := Plan(host, versionOf, reg, version, abi);
      r.ending.Done? && r.ending.value.asset.Some? ==>
        r.ending.value.asset.value.name.Some? && |r.ending.value.asset.value.name.value| > 0
  {
    var r := Plan(host, versionOf, reg, version, abi);
    if r.ending.Done? && r.ending.value.asset.Some? {
      var p := r.ending.value;
      var d := p.decision;
      var fetched := ListReleaseAssets(reg, if Truthy(version) then version else None);
      PlanDecision(host, versionOf, reg, version, abi);
      var i: nat, k: nat :| FirstHit(fetched.value, d.patterns, i, k) && p.asset.value == fetched.value[k];
      NoPatternAcceptsEmptyName(d.version, d.cuTag, d.torchMM, d.pyTag, d.abiFalse, d.platform);
      assert d.patterns[i] in d.patterns;
    }
  }

  /** The ABI flag read from torch never influences `plan`: only `--abi` does. */
  lemma PlanIgnoresDetectedAbi(host: Host, versionOf: string -> Option<(nat, nat)>, reg: Registry,
                               version: Option<string>, abi: Option<string>,
                               torchVersion: string, cuda: Option<string>, a1: AbiProbe, a2: AbiProbe)
    ensures Plan(host.(torch := TorchFound(torchVersion, cuda, a1)), versionOf, reg, version, abi)
         == Plan(host.(torch := TorchFound(torchVersion, cuda, a2)), versionOf, reg, version, abi)
  {
  }

  /** What `do_install` does with the outcome of `plan`: exits and exceptions
      pass through, no asset exits with code 3, a missing download URL
      raises, `--dry-run` stops at the URL, and otherwise the package is
      uninstalled and the URL installed. `pipOk` is whether `pip install`
      succeeded. */
  function Install(p: Run<Planned>, dry: bool, pipOk: bool): (r: Run<Installed>)
    ensures p.ending.Exit? ==> r == Run(p.effects, Exit(p.ending.code))
    ensures p.ending.Raised? ==> r == Run(p.effects, Raised(p.ending.error))
    ensures r.ending == Exit(3) <==> p.ending == Exit(3) || (p.ending.Done? && p.ending.value.asset.None?)
    ensures dry ==> r.effects == p.effects
    ensures r.ending.Done? ==>
      && (r.ending.value.DryRun? <==> dry)
      && p.ending.Done? && p.ending.value.asset.Some?
      && p.ending.value.asset.value.downloadUrl == Some(r.ending.value.url)
    ensures r.ending.Done? && !dry ==> pipOk && r.effects == p.effects + [PipUninstall, PipInstall(r.ending.value.url)]
    ensures p.ending.Done? && p.ending.value.asset.Some? && p.ending.value.asset.value.downloadUrl.None?
      ==> r.ending == Raised(MissingDownloadUrl)
    ensures p.ending.Done? && p.ending.value.asset.Some? && p.ending.value.asset.value.downloadUrl.Some? ==>
      && (r.ending.Done? <==> dry || pipOk)
      && (!dry && !pipOk ==> r.ending == Raised(PipInstallFailed))
    ensures p.ending.Done? && (p.ending.value.asset.None? || p.ending.value.asset.value.downloadUrl.None?)
      ==> r.effects == p.effects
    ensures r.ending == Raised(PipInstallFailed) && p.ending.Done? ==>
      && p.ending.value.asset.Some? && p.ending.value.asset.value.downloadUrl.Some?
      && r.effects == p.effects + [PipUninstall, PipInstall(p.ending.value.asset.value.downloadUrl.value)]
  {
    match p.ending
    case Exit(code) => Run(p.effects, Exit(code))
    case Raised(err) => Run(p.effects, Raised(err))
    case Done(planned) =>
      if planned.asset.None? then Run(p.effects, Exit(3))
      else
        match planned.asset.value.downloadUrl
        case None => Run(p.effects, Raised(MissingDownloadUrl))
        case Some(url) =>
          if dry then Run(p.effects, Done(DryRun(url)))
          else
            var effects := p.effects + [PipUninstall, PipInstall(url)];
            if pipOk then Run(effects, Done(InstalledFrom(url)))
            else Run(effects, Raised(PipInstallFailed))
  }

  /** `do_install`, which plans first (the plan's own dry-run flag is not used). */
  function DoInstall(host: Host, versionOf: string -> Option<(nat, nat)>, reg: Registry,
                     version: Option<string>, abi: Option<string>, dry: bool, pipOk: bool): (r: Run<Installed>)
    ensures var p := Plan(host, versionOf, reg, version, abi);
      && (r.ending == Exit(3) <==> p.ending.Done? && p.ending.value.asset.None?)
      && (dry ==> forall e :: e in r.effects ==> !IsPip(e))
      && (host.torch.TorchMissing? ==> r == Run([], Exit(2)))
    ensures var p := Plan(host, versionOf, reg, version, abi);
      p.ending.Done? && p.ending.value.asset.Some? && p.ending.value.asset.value.downloadUrl.Some? ==>
        var url := p.ending.value.asset.value.downloadUrl.value;
        && (r.ending.Done? <==> dry || pipOk)
        && (!dry ==> r.effects == p.effects + [PipUninstall, PipInstall(url)])
        && (r.ending.Done? ==> r.ending.value.url == url)
  {
    Install(Plan(host, versionOf, reg, version, abi), dry, pipOk)
  }

  /** Every way `plan` stops `install` is final: its exit (code 2 when no
      compute tag resolves) and its exception pass through unchanged, and a
      found asset without a download URL raises before pip is run. */
  lemma DoInstallStopsWithPlan(host: Host, versionOf: string -> Option<(nat, nat)>, reg: Registry,
                               version: Option<string>, abi: Option<string>, dry: bool, pipOk: bool)
    ensures var p := Plan(host, versionOf, reg, version, abi);
      var r := DoInstall(host, versionOf, reg, version, abi, dry, pipOk);
      && (p.ending.Exit? ==> r == Run(p.effects, Exit(p.ending.code)))
      && (p.ending.Raised? ==> r == Run(p.effects, Raised(p.ending.error)))
      && (p.ending.Done? && p.ending.value.asset.Some? && p.ending.value.asset.value.downloadUrl.None?
          ==> r == Run(p.effects, Raised(MissingDownloadUrl)))
  {
  }
}

=== FILE: resolve.dfy ===
/** Choosing one compute tag from the two sources: the CUDA version torch
    was built with, and the release printed by `nvcc -V`. */
module Resolve {

  import opened Wrappers
  import opened Strings
  import opened Detect
  import opened Nvcc

  /** `get_nvcc_version`. `output` is the combined output of `nvcc -V`, or none
      when running it raised (the tool is missing); the exit status is not looked at. */
  function NvccVersion(output: Option<string>): (r: Option<string>)
    ensures output.None? ==> r.None?
    ensures output.Some? ==> r == NvccTag(output.value)
    ensures r.Some? ==> StartsWith(r.value, "cu") && AllDigits(r.value[2..])
  {
    match output
    case None => None
    case Some(out) => NvccTag(out)
  }

  /** `pick_cu_tag`: the torch tag when it is a non-empty string, otherwise
      whatever nvcc reports (possibly nothing). */
  function PickCuTag(torchCu: Option<string>, nvccOutput: Option<string>): (r: Option<string>)
    ensures Truthy(torchCu) ==> r == torchCu
    ensures !Truthy(torchCu) ==> r == NvccVersion(nvccOutput)
  {
    if Truthy(torchCu) then torchCu else NvccVersion(nvccOutput)
  }

  /** When torch reports a CUDA version, nvcc has no say in the chosen tag. */
  lemma TorchCudaWins(cuda: string, out1: Option<string>, out2: Option<string>)
    ensures PickCuTag(TorchCuTag(Some(cuda)), out1) == TorchCuTag(Some(cuda))
    ensures PickCuTag(TorchCuTag(Some(cuda)), out1) == PickCuTag(TorchCuTag(Some(cuda)), out2)
  {
    assert StartsWith(TorchCuTag(Some(cuda)).value, "cu");
  }

  /** When torch reports no CUDA version, the tag is nvcc's, or none. */
  lemma NoTorchCudaFallsBack(out: Option<string>)
    ensures PickCuTag(TorchCuTag(None), out) == NvccVersion(out)
  {
  }

  /** The two sources spell CUDA X.Y the same way, `cuXY`, so either can stand in for the other. */
  lemma SourcesAgree(x: string, y: string)
    requires |x| > 0 && AllDigits(x) && |y| > 0 && AllDigits(y)
    ensures TorchCuTag(Some(x + "." + y)) == NvccVersion(Some("release " + x + "." + y))
    ensures TorchCuTag(Some(x + "." + y)) == Some("cu" + x + y)
  {
    TorchCuTagDotted(x, y);
    NvccReleaseDotted(x, y);
  }

  /** nvcc's `release X.Y` alone gives `cuXY`. */
  lemma NvccReleaseDotted(x: string, y: string)
    requires |x| > 0 && AllDigits(x) && |y| > 0 && AllDigits(y)
    ensures NvccVersion(Some("release " + x + "." + y)) == Some("cu" + x + y)
  {
    var m := Release(" ", x, y);
    assert "release " + x + "." + y == "" + (Text(m) + "") by {
      var head := "release ";
      Assoc(head + x, ".", y);
      Assoc(head, x, "." + y);
      Assoc(Keyword, " ", x + ("." + y));
      assert Keyword + " " == head;
    }
    FirstReleaseAfter("", m, "");
  }
}

=== FILE: selection.dfy ===
/** `select_asset`: patterns in order (outer loop), assets in list order
    (inner loop), and the first asset whose name matches wins. */
module Selection {

  import opened Wrappers
  import opened Strings
  import opened Glob
  import opened Catalog

  /** Asset `k`'s name matches pattern `i`. */
  predicate Hit(assets: seq<Asset>, pats: seq<string>, i: nat, k: nat)
    requires i < |pats| && k < |assets|
  {
    Matches(NameOf(assets[k]), pats[i])
  }

  /** No asset matches any of the patterns before index `i`. */
  predicate NoHitBefore(assets: seq<Asset>, pats: seq<string>, i: nat)
    requires i <= |pats|
  {
    forall j, m :: 0 <= j < i && 0 <= m < |assets| ==> !Hit(assets, pats, j, m)
  }

  /** No asset matches any pattern. */
  predicate NoHit(assets: seq<Asset>, pats: seq<string>) {
    NoHitBefore(assets, pats, |pats|)
  }

  /** Pattern `i` and asset `k` are where the search stops: asset `k` matches
      pattern `i`, no asset matches an earlier pattern, and no earlier asset
      matches pattern `i`. */
  predicate FirstHit(assets: seq<Asset>, pats: seq<string>, i: nat, k: nat) {
    && i < |pats| && k < |assets|
    && Hit(assets, pats, i, k)
    && NoHitBefore(assets, pats, i)
    && forall m :: 0 <= m < k ==> !Hit(assets, pats, i, m)
  }

  /** The stopping point is unique. */
  lemma FirstHitUnique(assets: seq<Asset>, pats: seq<string>, i: nat, k: nat, i': nat, k': nat)
    requires FirstHit(assets, pats, i, k) && FirstHit(assets, pats, i', k')
    ensures i == i' && k == k'
  {
  }

  /** The inner loop: the first asset from index `from` on whose name matches `pat`. */
  function FirstAssetFor(assets: seq<Asset>, pat: string, from: nat): (k: Option<nat>)
    requires from <= |assets|
    ensures k.Some? ==> from <= k.value < |assets| && Matches(NameOf(assets[k.value]), pat)
    ensures k.Some? ==> forall m :: from <= m < k.value ==> !Matches(NameOf(assets[m]), pat)
    ensures k.None? ==> forall m :: from <= m < |assets| ==> !Matches(NameOf(assets[m]), pat)
    decreases |assets| - from
  {
    if from == |assets| then None
    else if Matches(NameOf(assets[from]), pat) then Some(from)
    else FirstAssetFor(assets, pat, from + 1)
  }

  /** The outer loop from pattern `i` on, given that no earlier pattern matched. */
  function Locate(assets: seq<Asset>, pats: seq<string>, i: nat): (r: Option<(nat, nat)>)
    requires i <= |pats| && NoHitBefore(assets, pats, i)
    ensures r.Some? ==> FirstHit(assets, pats, r.value.0, r.value.1)
    ensures r.None? ==> NoHit(assets, pats)
    decreases |pats| - i
  {
    if i == |pats| then None
    else
      match FirstAssetFor(assets, pats[i], 0)
      case Some(k) => Some((i, k))
      case None => Locate(assets, pats, i + 1)
  }

  /** `select_asset`. */
  function Select(assets: seq<Asset>, pats: seq<string>): (r: Option<Asset>)
    ensures r.None? <==> NoHit(assets, pats)
    ensures r.Some? ==> exists i: nat, k: nat :: FirstHit(assets, pats, i, k) && r.value == assets[k]
  {
    match Locate(assets, pats, 0)
    case Some(hit) => Some(assets[hit.1])
    case None => None
  }

  /** Whenever the search stops at asset `k`, that asset is the selection. */
  lemma SelectIsFirstHit(assets: seq<Asset>, pats: seq<string>, i: nat, k: nat)
    requires FirstHit(assets, pats, i, k)
    ensures Select(assets, pats) == Some(assets[k])
  {
    var hit := Locate(assets, pats, 0);
    if hit.Some? {
      FirstHitUnique(assets, pats, i, k, hit.value.0, hit.value.1);
    }
  }

  /** An empty asset list or an empty pattern list selects nothing, without error. */
  lemma EmptySelectsNothing(assets: seq<Asset>, pats: seq<string>)
    requires |assets| == 0 || |pats| == 0
    ensures Select(assets, pats) == None
  {
  }

  /** The nested loops of `select_asset`, returning at the first match. */
  method SelectAsset(assets: seq<Asset>, pats: seq<string>) returns (r: Option<Asset>)
    ensures r == Select(assets, pats)
    ensures r.None? <==> NoHit(assets, pats)
  {
    var i := 0;
    while i < |pats|
      invariant 0 <= i <= |pats|
      invariant NoHitBefore(assets, pats, i)
    {
      var pat := pats[i];
      var k := 0;
      while k < |assets|
        invariant 0 <= k <= |assets|
        invariant forall m :: 0 <= m < k ==> !Hit(assets, pats, i, m)
      {
        var a := assets[k];
        var name := a.name.GetOr("");
        if Matches(name, pat) {
          SelectIsFirstHit(assets, pats, i, k);
          return Some(a);
        }
        k := k + 1;
      }
      i := i + 1;
    }
    return None;
  }

  /** Pattern order beats asset order: with assets `pkg-A-v1.whl`, `pkg-B-v1.whl`
      and patterns `pkg-B-*`, `pkg-A-*`, the later asset `pkg-B-v1.whl` is chosen. */
  lemma PatternOrderWins(a: Asset, b: Asset)
    requires a.name == Some("pkg-A-v1.whl") && b.name == Some("pkg-B-v1.whl")
    ensures Select([a, b], ["pkg-B-*", "pkg-A-*"]) == Some(b)
  {
    var assets, pats := [a, b], ["pkg-B-*", "pkg-A-*"];
    assert pats[0] == "pkg-B-" + "*";
    LiteralHead(NameOf(a), "pkg-B-", "*");
    LiteralHead(NameOf(b), "pkg-B-", "*");
    assert NameOf(a)[..6] == "pkg-A-";
    assert NameOf(b)[..6] == "pkg-B-";
    StarAcceptsAll(NameOf(b)[6..]);
    assert FirstHit(assets, pats, 0, 1);
    SelectIsFirstHit(assets, pats, 0, 1);
  }
}

=== FILE: strings.dfy ===
/** String helpers mirroring the few `str` operations the installer uses:
    `startswith`, `replace(c, "")`, `split(c)[0]`, `upper()`, decimal
    formatting of integers, and the character classes of `re`. */
module Strings {

  import opened Wrappers

  predicate StartsWith(s: string, prefix: string) {
    |prefix| <= |s| && s[..|prefix|] == prefix
  }

  predicate EndsWith(s: string, suffix: string) {
    |suffix| <= |s| && s[|s| - |suffix|..] == suffix
  }

  /** Regrouping a concatenation of three strings. */
  lemma Assoc(a: string, b: string, c: string)
    ensures (a + b) + c == a + (b + c)
  {
  }

  /** Python truthiness of an optional string: `None` and `""` are false. */
  predicate Truthy(o: Option<string>) {
    o.Some? && |o.value| > 0
  }

  /** `s.replace(c, "")`: every occurrence of `c` deleted, the rest kept in order. */
  function DeleteAll(s: string, c: char): (r: string)
    ensures c !in r
    ensures forall x {:trigger multiset(r)[x]} :: x != c ==> multiset(r)[x] == multiset(s)[x]
  {
    if |s| == 0 then ""
    else
      assert s == [s[0]] + s[1..];
      (if s[0] == c then "" else [s[0]]) + DeleteAll(s[1..], c)
  }

  /** Deleting distributes over concatenation, so the kept characters stay in order. */
  lemma {:induction false} DeleteAllConcat(a: string, b: string, c: char)
    ensures DeleteAll(a + b, c) == DeleteAll(a, c) + DeleteAll(b, c)
    decreases |a|
  {
    if |a| == 0 {
      assert a + b == b;
    } else {
      var h := if a[0] == c then "" else [a[0]];
      assert (a + b)[0] == a[0] && (a + b)[1..] == a[1..] + b;
      assert DeleteAll(a + b, c) == h + DeleteAll(a[1..] + b, c);
      assert DeleteAll(a, c) == h + DeleteAll(a[1..], c);
      DeleteAllConcat(a[1..], b, c);
      Assoc(h, DeleteAll(a[1..], c), DeleteAll(b, c));
    }
  }

  /** A string that does not contain `c` is left unchanged. */
  lemma {:induction false} DeleteAllAbsent(s: string, c: char)
    requires c !in s
    ensures DeleteAll(s, c) == s
    decreases |s|
  {
    if |s| > 0 {
      assert c !in s[1..];
      DeleteAllAbsent(s[1..], c);
      assert s == [s[0]] + s[1..];
    }
  }

  /** `s.split(sep)[0]`: the text before the first `sep`, or all of `s`. */
  function BeforeFirst(s: string, sep: char): (r: string)
    ensures sep !in r
    ensures StartsWith(s, r)
    ensures |r| < |s| ==> s[|r|] == sep
  {
    if |s| == 0 || s[0] == sep then ""
    else
      var rest := BeforeFirst(s[1..], sep);
      assert ([s[0]] + rest)[1..] == rest;
      [s[0]] + rest
  }

  predicate IsDigit(c: char) {
    '0' <= c <= '9'
  }

  /** Python's `str.isspace`, which is what `\s` matches in a `str` pattern. */
  predicate IsSpace(c: char) {
    var n := c as int;
    (9 <= n <= 13) || (28 <= n <= 32) || n == 0x85 || n == 0xA0 || n == 0x1680
    || (0x2000 <= n <= 0x200A) || n == 0x2028 || n == 0x2029 || n == 0x202F
    || n == 0x205F || n == 0x3000
  }

  lemma DigitIsNotSpace(c: char)
    requires IsDigit(c)
    ensures !IsSpace(c)
  {
  }

  predicate AllDigits(s: string) {
    forall i :: 0 <= i < |s| ==> IsDigit(s[i])
  }

  predicate AllSpace(s: string) {
    forall i :: 0 <= i < |s| ==> IsSpace(s[i])
  }

  function DigitChar(d: nat): (c: char)
    requires d < 10
    ensures IsDigit(c)
    ensures c as int - '0' as int == d
  {
    ('0' as int + d) as char
  }

  /** Python's `str(n)` for a non-negative integer, as used in f-strings. */
  function Decimal(n: nat): (r: string)
    ensures |r| > 0 && AllDigits(r)
    ensures |r| > 1 ==> r[0] != '0'
    ensures n < 10 <==> |r| == 1
    decreases n
  {
    if n < 10 then [DigitChar(n)] else Decimal(n / 10) + [DigitChar(n % 10)]
  }

  /** The value of a string of decimal digits (an independent reading of `Decimal`). */
  function DigitsValue(s: string): nat
    requires AllDigits(s)
  {
    if |s| == 0 then 0
    else DigitsValue(s[..|s| - 1]) * 10 + (s[|s| - 1] as int - '0' as int)
  }

  /** Reading back a formatted number gives the number: formatting loses nothing. */
  lemma {:induction false} DecimalRoundTrip(n: nat)
    ensures DigitsValue(Decimal(n)) == n
    decreases n
  {
    if n >= 10 {
      var r := Decimal(n);
      assert r[..|r| - 1] == Decimal(n / 10);
      DecimalRoundTrip(n / 10);
    }
  }

  /** `str.upper()` on ASCII letters; other characters are kept. */
  function UpperChar(c: char): char {
    if 'a' <= c <= 'z' then (c as int - 32) as char else c
  }

  function Upper(s: string): (r: string)
    ensures |r| == |s|
    ensures forall i :: 0 <= i < |s| ==> r[i] == UpperChar(s[i])
  {
    if |s| == 0 then "" else [UpperChar(s[0])] + Upper(s[1..])
  }

  /** Only a letter and its lower-case form upper-case to an upper-case letter. */
  lemma UpperCharOnto(c: char, d: char)
    requires 'A' <= d <= 'Z'
    ensures UpperChar(c) == d <==> c == d || c as int == d as int + 32
  {
  }

  /** `s` spells "false" in some mix of letter cases. */
  predicate SpellsFalse(s: string) {
    && |s| == 5
    && (s[0] == 'F' || s[0] == 'f')
    && (s[1] == 'A' || s[1] == 'a')
    && (s[2] == 'L' || s[2] == 'l')
    && (s[3] == 'S' || s[3] == 's')
    && (s[4] == 'E' || s[4] == 'e')
  }

  /** `s.upper() == "FALSE"` holds exactly for the spellings of "false" in any letter case. */
  lemma UpperIsFalse(s: string)
    ensures Upper(s) == "FALSE" <==> SpellsFalse(s)
  {
    if |s| == 5 {
      var u := Upper(s);
      UpperCharOnto(s[0], 'F');
      UpperCharOnto(s[1], 'A');
      UpperCharOnto(s[2], 'L');
      UpperCharOnto(s[3], 'S');
      UpperCharOnto(s[4], 'E');
      if SpellsFalse(s) {
        assert u == [u[0], u[1], u[2], u[3], u[4]];
      }
    }
  }
}

=== FILE: wrappers.dfy ===
/** Optional values and success/failure results, standing in for Python's
    `None` returns and raised exceptions. */
module Wrappers {

  /** A value that may be absent (Python `Optional[T]`). */
  datatype Option<+T> = None | Some(value: T) {

    /** Returns the value, or `default` when absent. */
    function GetOr(default: T): T {
      match this
      case Some(v) => v
      case None => default
    }
  }

  /** Either a value or an error. */
  datatype Result<+R, +E> = Success(value: R) | Failure(error: E)
}
